=== FILE: README.md ===
# ngok client: traffic logger and control decisions, in Dafny

ngok is a reverse tunnel. A client with no public address holds a control
connection to a server. By design, for every public connection the server relays,
the client opens a data connection and copies bytes between it and a local target
service. As written, the data-channel gate does not get there; see the
`Client.DataChannelRound` line under "Left out".
This project models the client's core, `src/client.rs`:

- **The traffic logger.** Both ends of a relay are wrapped in a `Logger`, a stream
  decorator. It forwards every read unchanged. For each completed, non-empty,
  valid UTF-8 read, it looks at the first line. If that line carries the
  `HTTP/1.1` token, the line drives a two-state timer shared by the two loggers:
  - With no request pending, the line is logged as a request and the timer starts.
  - With a request pending, the line consumes the timer. It is logged, with the
    elapsed time and a colour bucket, only if the text before its first space
    parses as an `i32`. A line with no space at all, such as `HTTP/1.1 404`,
    consumes the timer without any log.
- **The control decisions.** `init` sends `Init`, reads one reply, and acknowledges
  it with `Ack` only when the reply is `Success(domain)`. Each round of the
  data-channel loop sends `DataInit(domain)` and reads a reply. It dials the local
  target only when `Packet::parse` of the reply buffer yields `DataForward`
  (src/client.rs:98). `main` runs the handshake first and the data channel after it.

Files:

- `optional.dfy`: the `Option` type.
- `utf8.dfy`: UTF-8 decoding. It stands in for `str::from_utf8` and follows Table
  3-7 of section 3.9 of the Unicode Standard.
- `text.dfy`: the Rust string operations applied to the first line: `split('\n')`,
  `contains`, `replace`, `trim` (the Unicode White_Space property), `split_once`,
  `parse::<i32>` and `i32::to_string`.
- `logger.dfy`: these pieces of the logger:
  - the `Inspect` specification function;
  - the `LoggerState` and `Logger` classes, with `PollRead` written imperatively
    against `Inspect`;
  - lemmas about single reads and about runs of reads.
- `packet.dfy`: the `Packet` messages.
- `client.dfy`: the handshake, one data-channel round, and `main`.

Modelling choices:

- The clock is a natural number passed in with each read.
- `Instant::elapsed` saturates at zero.
- What is printed becomes a returned `LogEvent`.
- Colours are an enum: `Yellow`, `Red`, `Green`, and `Plain` for uncoloured output.
- The `Mutex` around the shared `LoggerState` is a plain object that reads update
  one after another.
- Sockets are replaced by the environment's answers: whether each write succeeded,
  and what the one read returned.

Behaviours of the code that the model keeps as written:

- A reply that `Packet::parse` cannot decode makes the client panic, through the
  `unwrap` at src/packet.rs:13. A reply that decodes to the wrong packet is handled
  instead: `init` returns the error "fail to init with server" (src/client.rs:56-57).
- When `run_data_channel` fails, `main` only logs the error and still returns
  `Ok(())` (src/client.rs:32-36), so the process ends successfully.
- A response line counts only if it contains `HTTP/1.1` itself. A bare `200 OK`
  first line is ignored.
- `replace("HTTP/1.1", "")` removes the occurrences it finds from left to right,
  without overlaps. An occurrence formed by the removal itself stays in the logged
  text.

## Model

| member | source | states |
|---|---|---|
| `Utf8.Decode` | src/client.rs:151 | stated by `Utf8.DecodeExactlyEncodings`: a buffer decodes to a text exactly when it is that text's UTF-8 encoding, and to None otherwise |
| `Utf8.DecodeFirst` | src/client.rs:151 | a well-formed leading sequence takes 1 to 4 bytes; a one-byte sequence decodes to its own value, a longer one to a code point of at least 0x80, and every byte after the lead is a continuation byte |
| `Utf8.DecodeEncode` | src/client.rs:151 | decoding the UTF-8 encoding of any string gives that string back |
| `Utf8.DecodeFirstEncodes` | src/client.rs:151 | the leading sequence accepted is exactly the UTF-8 encoding of the scalar value returned |
| `Utf8.EncodeDecode` | src/client.rs:151 | whatever the decoder accepts is exactly the encoding of the text it returns |
| `Utf8.DecodeExactlyEncodings` | src/client.rs:151 | a buffer decodes to a text if and only if it is that text's UTF-8 encoding, so valid UTF-8 and strings correspond one to one |
| `Utf8.DecodeSplitAtLineFeed` | src/client.rs:151 | in a valid buffer a line-feed byte is always a character boundary: both sides are valid and decode to the two sides of a '\n' |
| `Utf8.NoLineFeedNoNewline` | src/client.rs:151 | a valid buffer without the byte 0x0A decodes to text without '\n' |
| `Text.FirstLine` | src/client.rs:160 | the first line is a prefix of the text without '\n', and it ends either where the text ends or just before the text's first '\n' |
| `Text.FirstLineOfLines` | src/client.rs:160 | whatever follows the first newline does not change the first line |
| `Text.Contains` | src/client.rs:161 | the left-to-right scan reports the token exactly when it occurs at some index |
| `Text.RemoveAll` | src/client.rs:165 | removing the token never makes the line longer |
| `Text.RemoveAllAtFirst` | src/client.rs:165 | at the leftmost occurrence of the token, removal keeps the text before it, drops the occurrence, and carries on after it |
| `Text.RemoveAllShortens` | src/client.rs:165 | a line containing the token loses at least the token's length |
| `Text.RemoveAllUnchanged` | src/client.rs:165 | removing the token leaves the line unchanged if and only if the line does not contain it |
| `Text.TrimStart` | src/client.rs:166 | the result is a suffix of the input, everything dropped is whitespace, and it does not start with whitespace |
| `Text.TrimEnd` | src/client.rs:166 | the result is a prefix of the input, everything dropped is whitespace, and it does not end with whitespace |
| `Text.Trim` | src/client.rs:166 | the result is a slice of the input that neither starts nor ends with whitespace, and everything outside it is whitespace |
| `Text.TrimIdempotent` | src/client.rs:191 | trimming the already trimmed log again (the request print) changes nothing |
| `Text.SplitOnce` | src/client.rs:170 | there is no split if and only if the text has no space; otherwise the text is the part before, the space, and the part after, and the part before has no space |
| `Text.ParseI32` | src/client.rs:174 | exactly these tokens parse: an optional sign followed by one or more ASCII digits and nothing else, whose signed value lies in the 32-bit range; the result is the digits' decimal value, negated after a minus sign (so `+200` and `0200` both give 200) |
| `Text.Decimal` | src/client.rs:186 | a non-negative number prints as digits whose value is the number; a negative one as a minus sign followed by the digits of its magnitude; there is no leading zero except in `0` itself |
| `Text.ParseDecimal` | src/client.rs:186 | every 32-bit integer, printed in decimal, parses back to itself |
| `TrafficLogger.Classify` | src/client.rs:178-187 | the four colour buckets are total and disjoint: yellow exactly for 404, red for other codes from 400, green for 200 to 399, plain below 200 |
| `TrafficLogger.StatusText` | src/client.rs:178-187 | a coloured response prints the whole log text; an uncoloured one prints the status's canonical decimal form, which parses back to the status |
| `TrafficLogger.Elapsed` | src/client.rs:189 | elapsed time is now minus start when the clock has not gone back, and zero otherwise |
| `TrafficLogger.ReadLine` | src/client.rs:142-160 | a line is examined if and only if the read is ready, non-empty and valid UTF-8, and it is the first line of the decoded text |
| `TrafficLogger.Qualifies` | src/client.rs:142-163 | a read qualifies if and only if it is ready, non-empty and valid UTF-8, and the token occurs in its first line |
| `TrafficLogger.LogText` | src/client.rs:165-166 | the logged text has no surrounding whitespace; it is the trimmed line when the token is absent, and at least the token's length shorter than the line when it is present |
| `TrafficLogger.StatusCode` | src/client.rs:170-176 | no space means no status; otherwise the status is exactly the text before the log's first space parsed as an i32, and lies in the 32-bit range |
| `TrafficLogger.InspectLine` | src/client.rs:160-193 | a line without the token changes nothing; with the token it starts a stopped timer or stops a running one; a request is logged exactly when the timer was stopped, with the stripped and trimmed line; with a running timer, a status that parses is logged as a response with the elapsed time since the start, the status's bucket and the status text, and one that does not parse consumes the timer without a log |
| `TrafficLogger.Inspect` | src/client.rs:141-194 | a non-qualifying read leaves the timer alone and logs nothing; a qualifying read toggles the timer |
| `TrafficLogger.QuietUnlessQualifying` | src/client.rs:142-163 | a read changes nothing and logs nothing if and only if it does not qualify |
| `TrafficLogger.ReadLineIgnoresRest` | src/client.rs:151-160 | for a ready read of a valid buffer, the line examined is exactly the decoded text of the bytes before the first line feed |
| `TrafficLogger.RestOfBufferIgnored` | src/client.rs:151-160 | two valid buffers that agree up to their first line feed have the same effect on timer and log, whatever follows it |
| `TrafficLogger.InspectEventKind` | src/client.rs:169-192 | a response is logged only when a timer was running, and a running timer after a read means the read either changed nothing or logged a request |
| `TrafficLogger.StepAlternates` | src/client.rs:169-192 | each read keeps requests and responses alternating |
| `TrafficLogger.ReplayAlternates` | src/client.rs:102-113 | starting from a fresh state, in any run of reads through the two loggers every response log immediately follows a request log, and a running timer was started by the last line logged |
| `TrafficLogger.StepToggles` | src/client.rs:169-192 | a read flips whether a request is pending exactly when it qualifies |
| `TrafficLogger.ReplayParity` | src/client.rs:169-192 | starting from a fresh state, a request is pending exactly after an odd number of qualifying reads |
| `TrafficLogger.LoggerState.constructor` | src/client.rs:128-132 | a new state has no pending request |
| `TrafficLogger.Logger.constructor` | src/client.rs:122-126 | a logger holds the state it is given, shared rather than copied |
| `TrafficLogger.Logger.PollRead` | src/client.rs:136-235 | the wrapped read's answer is returned unchanged on every path, the buffer is never written, and the new timer and the log are those `Inspect` gives for the old timer |
| `TrafficLogger.NewRelayLoggers` | src/client.rs:102-111 | the two loggers of a relay are new and share one new state with no pending request |
| `TrafficLogger.RequestThenResponse` | src/client.rs:102-113 | through the shared state, a qualifying request read on one side logs the request text; a qualifying response read on the other side then leaves no request pending and, when its status parses, logs a response timed from the request's read |
| `Client.Handshake` | src/client.rs:39-79 | `Init` is written first, before any reply is read; the tunnel is established exactly when `Init` was written, the reply is `Success(domain)` and `Ack` was written; `Ack` is written exactly then, as the last action; any other parsed reply fails with the "fail to init" error; a reply that cannot be parsed panics, and exactly a failed write or read is an I/O error |
| `Client.NoAckWithoutSuccess` | src/client.rs:48-58 | without a `Success` reply no domain is returned and `Ack` is never written |
| `Client.DataChannelRound` | src/client.rs:81-116 | a round first announces the domain with `DataInit`; the local target is dialed exactly when the parsed reply is `DataForward` and the dial succeeds; any other parsed reply makes the loop dial the server again; an unparsable reply panics; a failed connect, write, read or target dial, and only that, ends the loop with an I/O error |
| `Client.RunClient` | src/client.rs:26-37 | a data round happens exactly when the handshake succeeded, and it announces the domain from the `Success` reply; a rejected or failed handshake exits with an error; after a successful handshake the process ends successfully exactly when the data channel has an I/O error; it panics exactly on an unparsable reply; relaying or retrying keeps it running |

## Left out

- All socket I/O: `TcpStream::connect`, `read_buf`, `write_all`, `copy_bidirectional`, and the `AsyncWrite` methods of `Logger` (src/client.rs:238-266), which only delegate to the wrapped stream. Each is modelled only as the answer it produces.
- The `run_data_channel` loop itself. `DataChannelRound` models one round, and `RunClient` reports whether the loop would go on.
- `Client.DataChannelRound`: its `Reply` stands for whatever `Packet::parse` returns on the reply buffer, and the model does not compute that from the bytes read. At src/client.rs:90-91 the buffer starts as `packet.len()` zero bytes and `read_buf` appends the server's bytes after them, while `Packet::parse` decodes from the start. As far as the source shows, the parse would see the zeros first, that is variant tag 0 (`Ack`, src/packet.rs:5), so line 98 would never match `DataForward` and the local target would never be dialed. The model keeps line 98's decision on an abstract parsed reply and does not promise that a `DataForward` reply can actually arrive.
- `Packet::DataForward`: src/packet.rs:4-9 declares no such variant, although src/client.rs:89 and 98 use it. The model adds it to `Packet`.
- The heartbeat task: one byte every 500 ms on the control connection. It is concurrency and timing.
- `Mutex` and `Arc` locking, including a poisoned lock. The shared state is one sequentially updated object.
- ANSI colouring, the padding widths of `print!`/`println!`, and `tracing` output. Colours are an enum, and a printed line is a `LogEvent`.
- `Instant::now`. It is replaced by a clock parameter.
- The bincode encoding behind `Packet::parse` (src/packet.rs:11-15) is not part of this model. Replies are abstract `Reply` values.
- src/server.rs: command-line configuration, and a `handle_connection` with unimplemented arms. The command-line `Config` of the client is left out as well.
- `TrafficLogger.Logger.PollRead`: the read buffer is passed as a value, so "never written" holds by construction rather than being proved about a mutable buffer.
- Concrete example lines, such as a literal request line followed by a literal `HTTP/1.1 404 Not Found` response, are not stated as lemmas of their own. `InspectLine` and `RequestThenResponse` state the general case they are instances of.

=== FILE: client.dfy ===
/**
 * The decisions the client makes on its connections to the server
 * (src/client.rs:25-116): the control handshake of `init`, one round of the
 * data-channel loop of `run_data_channel`, and `main`, which runs them in that
 * order. Sockets become the environment's answers: whether each write
 * succeeded and what the one read returned.
 */
module Client {
  import opened Optional
  import opened Packets

  /** What reading one reply from the server gave. */
  datatype Reply =
    | ReadFailed            // `read_buf` returned an I/O error
    | Received(packet: Packet)
    | Garbled               // bytes `Packet::parse` cannot decode: its `unwrap` panics

  /** What the server side of the control connection does. */
  datatype ControlLink = ControlLink(initWritten: bool, reply: Reply, ackWritten: bool)

  /** What happens on the wire and on the console, in order. */
  datatype Action =
    | Wrote(packet: Packet)
    | Read(packet: Packet)
    | TunnelUp(host: string)   // "Tunnel up!" with the assigned host
    | DialedTarget             // connected to the local target port

  /** How `init` ends. */
  datatype InitOutcome =
    | Established(domain: string)  // `Ok(domain)`; the heartbeat task is then spawned
    | IoFailed                      // an I/O error propagated by `?`
    | Rejected                      // "fail to init with server"
    | Panicked                      // `Packet::parse` panicked

  datatype InitRun = InitRun(outcome: InitOutcome, actions: seq<Action>)

  /** `init`: send `Init`, read one reply, and acknowledge it only if it is `Success(domain)`. */
  function Handshake(link: ControlLink): (r: InitRun)
    ensures r.actions != [] ==> r.actions[0] == Wrote(Init)
    ensures forall i :: 0 <= i < |r.actions| && r.actions[i].Read? ==> i > 0 && r.actions[0] == Wrote(Init)
    ensures r.outcome.Established? <==>
      link.initWritten && link.reply.Received? && link.reply.packet.Success? && link.ackWritten
    ensures r.outcome.Established? ==> link.reply.packet == Success(r.outcome.domain)
    ensures Wrote(Ack) in r.actions <==> r.outcome.Established?
    ensures r.outcome.Established? ==> r.actions[|r.actions| - 1] == Wrote(Ack)
    ensures link.initWritten && link.reply.Received? && !link.reply.packet.Success? ==>
      r.outcome == Rejected
    ensures r.outcome == Panicked <==> link.initWritten && link.reply == Garbled
    ensures r.outcome == IoFailed <==>
      (!link.initWritten || link.reply == ReadFailed
       || (link.reply.Received? && link.reply.packet.Success? && !link.ackWritten))
  {
    if !link.initWritten then InitRun(IoFailed, [])
    else match link.reply
      case ReadFailed => InitRun(IoFailed, [Wrote(Init)])
      case Garbled => InitRun(Panicked, [Wrote(Init)])
      case Received(p) =>
        if !p.Success? then InitRun(Rejected, [Wrote(Init), Read(p)])
        else
          var announced := [Wrote(Init), Read(p), TunnelUp(p.domain)];
          if link.ackWritten then InitRun(Established(p.domain), announced + [Wrote(Ack)])
          else InitRun(IoFailed, announced)
  }

  /** Any reply other than `Success` fails the handshake and is never acknowledged. */
  lemma NoAckWithoutSuccess(link: ControlLink)
    requires !(link.reply.Received? && link.reply.packet.Success?)
    ensures !Handshake(link).outcome.Established?
    ensures Wrote(Ack) !in Handshake(link).actions
  {
  }

  /** What the server side of one data connection does. */
  datatype DataLink = DataLink(connected: bool, announced: bool, reply: Reply, targetConnected: bool)

  /** How one round of the data-channel loop ends. */
  datatype RoundOutcome =
    | Relayed      // the relay ran; the loop then dials again
    | Retry        // the reply was not `DataForward`; the loop dials again
    | LoopFailed   // an I/O error ended `run_data_channel`
    | RoundPanicked

  datatype DataRound = DataRound(outcome: RoundOutcome, actions: seq<Action>)

  /**
   * One round of `run_data_channel`: announce the domain with `DataInit`, read
   * the reply, and dial the local target only when the reply parses as
   * `DataForward`. `link.reply` is what `Packet::parse` makes of the reply
   * buffer, taken as given rather than computed from the bytes read.
   */
  function DataChannelRound(domain: string, link: DataLink): (r: DataRound)
    ensures r.actions != [] ==> r.actions[0] == Wrote(DataInit(domain))
    ensures DialedTarget in r.actions <==>
      link.connected && link.announced && link.reply == Received(DataForward) && link.targetConnected
    ensures r.outcome == Relayed <==> DialedTarget in r.actions
    ensures r.outcome == Retry <==>
      link.connected && link.announced && link.reply.Received? && link.reply.packet != DataForward
    ensures r.outcome == RoundPanicked <==> link.connected && link.announced && link.reply == Garbled
    ensures r.outcome == LoopFailed <==>
      (!link.connected || !link.announced || link.reply == ReadFailed
       || (link.reply == Received(DataForward) && !link.targetConnected))
  {
    if !link.connected || !link.announced then DataRound(LoopFailed, [])
    else match link.reply
      case ReadFailed => DataRound(LoopFailed, [Wrote(DataInit(domain))])
      case Garbled => DataRound(RoundPanicked, [Wrote(DataInit(domain))])
      case Received(p) =>
        var answered := [Wrote(DataInit(domain)), Read(p)];
        if p != DataForward then DataRound(Retry, answered)
        else if link.targetConnected then DataRound(Relayed, answered + [DialedTarget])
        else DataRound(LoopFailed, answered)
  }

  /** Whether the client process is still running, and if not how it exits. */
  datatype ProcessState =
    | Running       // the data-channel loop goes on to its next round
    | ExitSuccess   // `main` returns `Ok(())`
    | ExitFailure   // `main` returns the handshake's error: non-zero exit status
    | ExitPanic     // a panic ends the process

  /** The client's handshake, its first data round if it gets that far, and the process state. */
  datatype ClientRun = ClientRun(handshake: InitRun, round: Option<DataRound>, process: ProcessState)

  /**
   * `main`: a failed handshake ends the process with an error before any data
   * connection is opened; otherwise the data channel announces exactly the
   * domain the server assigned, and an I/O error there is only logged.
   */
  function RunClient(control: ControlLink, data: DataLink): (c: ClientRun)
    ensures c.round.Some? <==> c.handshake.outcome.Established?
    ensures c.round.Some? ==> control.reply == Received(Success(c.handshake.outcome.domain))
    ensures c.round.Some? && c.round.value.actions != [] ==>
      c.round.value.actions[0] == Wrote(DataInit(c.handshake.outcome.domain))
    ensures c.handshake.outcome.Rejected? || c.handshake.outcome.IoFailed? <==> c.process == ExitFailure
    ensures c.process == Running <==> c.round.Some? && c.round.value.outcome in {Relayed, Retry}
    ensures c.process == ExitSuccess <==> c.round.Some? && c.round.value.outcome == LoopFailed
    ensures c.process == ExitPanic <==>
      (c.handshake.outcome.Panicked? || (c.round.Some? && c.round.value.outcome == RoundPanicked))
    ensures c.handshake.outcome.Established? ==>
      (c.process == ExitSuccess <==>
         (!data.connected || !data.announced || data.reply == ReadFailed
          || (data.reply == Received(DataForward) && !data.targetConnected)))
    ensures c.process == ExitPanic <==>
      (control.initWritten && control.reply == Garbled)
      || (c.handshake.outcome.Established? && data.connected && data.announced && data.reply == Garbled)
  {
    var h := Handshake(control);
    match h.outcome
    case Established(domain) =>
      var round := DataChannelRound(domain, data);
      var process := match round.outcome
        case Relayed => Running
        case Retry => Running
        case LoopFailed => ExitSuccess
        case RoundPanicked => ExitPanic;
      ClientRun(h, Some(round), process)
    case Panicked => ClientRun(h, None, ExitPanic)
    case _ => ClientRun(h, None, ExitFailure)
  }
}

=== FILE: logger.dfy ===
/**
 * The traffic logger of the client's relay (src/client.rs:118-236): a stream
 * decorator whose reads are forwarded untouched, and which inspects the first
 * line of every completed, non-empty read to pair an HTTP/1.1 request line with
 * the response line that follows it and log the response's latency and status.
 *
 * The clock is an abstract natural number passed in with each read; printing
 * becomes a returned `LogEvent`; the mutex around the shared state is a plain
 * object that reads update one after another.
 */
module TrafficLogger {
  import opened Optional
  import opened Utf8
  import opened Text

  /** What the wrapped stream's `poll_read` answered. */
  datatype Poll = Pending | Ready(outcome: IoResult)

  /** `Ok(())`, or an I/O error whose details the logger never looks at. */
  datatype IoResult = Done | IoError(kind: nat)

  /**
   * A tokio `ReadBuf` after the wrapped read: the bytes filled so far and the
   * room left. `capacity() - remaining()` is the number of filled bytes.
   */
  datatype ReadBuf = ReadBuf(filled: seq<byte>, unfilled: nat)
  {
    function Capacity(): nat { |filled| + unfilled }
    function Remaining(): nat { unfilled }
  }

  /** The four colour buckets of a logged status. `Plain` is printed uncoloured. */
  datatype Colour = Yellow | Red | Green | Plain

  /** A line the logger prints: the request text, or a response with its latency. */
  datatype LogEvent =
    | Request(text: string)
    | Response(elapsed: nat, colour: Colour, text: string)

  /** What one read does to the shared timer, and what it prints. */
  datatype Inspection = Inspection(timestamp: Option<nat>, event: Option<LogEvent>)

  /** The colour of a status code: 404 yellow, other codes from 400 red, 200-399 green. */
  function Classify(code: int): (c: Colour)
    ensures c == Yellow <==> code == 404
    ensures c == Red <==> code >= 400 && code != 404
    ensures c == Green <==> 200 <= code < 400
    ensures c == Plain <==> code < 200
  {
    if code == 404 then Yellow
    else if code >= 400 then Red
    else if code >= 200 then Green
    else Plain
  }

  /**
   * The text printed for a response: the whole status text when it is coloured,
   * the bare status number otherwise.
   */
  function StatusText(code: int, log: string): (t: string)
    requires I32Min <= code <= I32Max
    ensures Classify(code) != Plain ==> t == log
    ensures Classify(code) == Plain ==> t == Decimal(code) && ParseI32(t) == Some(code)
  {
    if Classify(code) == Plain then ParseDecimal(code); Decimal(code) else log
  }

  /** `Instant::elapsed`: the time since start, never negative. */
  function Elapsed(start: nat, now: nat): (d: nat)
    ensures now >= start ==> start + d == now
    ensures now < start ==> d == 0
  {
    if now >= start then now - start else 0
  }

  /** The first line of a ready, non-empty, valid UTF-8 read; None for any other read. */
  function ReadLine(poll: Poll, buf: ReadBuf): (line: Option<string>)
    ensures line.Some? ==> poll.Ready? && buf.filled != [] && Decode(buf.filled).Some?
    ensures line.Some? ==> line.value == FirstLine(Decode(buf.filled).value)
    ensures poll.Ready? && buf.filled != [] && Decode(buf.filled).Some? ==> line.Some?
  {
    if poll.Pending? || buf.Capacity() == buf.Remaining() then None
    else match Decode(buf.filled)
      case None => None
      case Some(text) => Some(FirstLine(text))
  }

  /**
   * The read carries a first line that mentions the HTTP/1.1 token: it is ready,
   * filled something, decodes as UTF-8, and the token occurs before the first newline.
   */
  function Qualifies(poll: Poll, buf: ReadBuf): (q: bool)
    ensures q <==> (poll.Ready? && buf.filled != [] && Decode(buf.filled).Some?
                    && exists i :: OccursAt(FirstLine(Decode(buf.filled).value), HttpToken, i))
  {
    match ReadLine(poll, buf)
    case None => false
    case Some(line) =>
      assert line == FirstLine(Decode(buf.filled).value);
      Contains(line, HttpToken)
  }

  /**
   * The text logged for a line: the line without the version token, trimmed.
   * It has no surrounding whitespace left, it is the trimmed line itself when the
   * token is absent, and it is shorter than the line by at least the token otherwise.
   */
  function LogText(line: string): (r: string)
    ensures Trim(r) == r
    ensures !Contains(line, HttpToken) ==> r == Trim(line)
    ensures Contains(line, HttpToken) ==> |r| + |HttpToken| <= |line|
  {
    var removed := RemoveAll(line, HttpToken);
    TrimIdempotent(removed);
    RemoveAllUnchanged(line, HttpToken);
    assert Contains(line, HttpToken) ==> |Trim(removed)| + |HttpToken| <= |line| by {
      TrimShortens(removed);
      if Contains(line, HttpToken) {
        RemoveAllShortens(line, HttpToken);
      }
    }
    Trim(removed)
  }

  /** Index k holds the first space of log. */
  ghost predicate FirstSpaceAt(log: string, k: int)
  {
    0 <= k < |log| && log[k] == ' ' && ' ' !in log[..k]
  }

  /** The status code of a response text: the part before the first space, as an i32. */
  function StatusCode(log: string): (code: Option<int>)
    ensures ' ' !in log ==> code.None?
    ensures code.Some? ==> I32Min <= code.value <= I32Max
    ensures code.Some? ==> exists k :: FirstSpaceAt(log, k) && ParseI32(log[..k]) == code
    ensures forall k :: FirstSpaceAt(log, k) ==> code == ParseI32(log[..k])
  {
    match SplitOnce(log, ' ')
    case None => None
    case Some((token, rest)) =>
      assert log[..|token|] == token;
      assert FirstSpaceAt(log, |token|);
      FirstSpaceUnique(log, |token|);
      ParseI32(token)
  }

  /** A text has at most one first space. */
  lemma FirstSpaceUnique(log: string, k: int)
    requires FirstSpaceAt(log, k)
    ensures forall j :: FirstSpaceAt(log, j) ==> j == k
  {
  }

  /** The effect of one qualifying-or-not first line on the timer. */
  function InspectLine(timestamp: Option<nat>, line: string, now: nat): (r: Inspection)
    ensures !Contains(line, HttpToken) ==> r == Inspection(timestamp, None)
    ensures Contains(line, HttpToken) ==> r.timestamp == if timestamp.None? then Some(now) else None
    ensures r.event.Some? && r.event.value.Request? <==> Contains(line, HttpToken) && timestamp.None?
    ensures r.event.Some? && r.event.value.Request? ==> r.event.value.text == LogText(line)
    ensures r.event.Some? && r.event.value.Response? ==>
      timestamp.Some? && r.event.value.elapsed == Elapsed(timestamp.value, now)
      && StatusCode(LogText(line)).Some? && r.event.value.colour == Classify(StatusCode(LogText(line)).value)
      && (r.event.value.colour != Plain ==> r.event.value.text == LogText(line))
    ensures timestamp.Some? && Contains(line, HttpToken) && StatusCode(LogText(line)).None? ==>
      r == Inspection(None, None)
    ensures timestamp.Some? && Contains(line, HttpToken) && StatusCode(LogText(line)).Some? ==>
      var code := StatusCode(LogText(line)).value;
      r == Inspection(None, Some(Response(Elapsed(timestamp.value, now), Classify(code),
                                          StatusText(code, LogText(line)))))
  {
    if !Contains(line, HttpToken) then Inspection(timestamp, None)
    else
      var log := LogText(line);
      match timestamp
      case None =>
        Inspection(Some(now), Some(Request(Trim(log))))
      case Some(start) =>
        match StatusCode(log)
        case None => Inspection(None, None)
        case Some(code) =>
          Inspection(None, Some(Response(Elapsed(start, now), Classify(code), StatusText(code, log))))
  }

  /** The effect of one read on the timer, and what it logs. */
  function Inspect(timestamp: Option<nat>, poll: Poll, buf: ReadBuf, now: nat): (r: Inspection)
    ensures !Qualifies(poll, buf) ==> r == Inspection(timestamp, None)
    ensures Qualifies(poll, buf) ==> r.timestamp == if timestamp.None? then Some(now) else None
  {
    match ReadLine(poll, buf)
    case None => Inspection(timestamp, None)
    case Some(line) => InspectLine(timestamp, line, now)
  }

  /** A read changes nothing and logs nothing exactly when it does not qualify. */
  lemma QuietUnlessQualifying(timestamp: Option<nat>, poll: Poll, buf: ReadBuf, now: nat)
    ensures Inspect(timestamp, poll, buf, now) == Inspection(timestamp, None) <==> !Qualifies(poll, buf)
    ensures Inspect(timestamp, poll, buf, now).event.Some? ==> Qualifies(poll, buf)
  {
  }

  /**
   * Only the text before the first newline is examined: in a valid buffer the
   * line looked at is the decoded text before the first line feed.
   */
  lemma ReadLineIgnoresRest(poll: Poll, head: seq<byte>, tail: seq<byte>, unfilled: nat)
    requires poll.Ready? && LineFeed !in head && Decode(head + [LineFeed] + tail).Some?
    ensures ReadLine(poll, ReadBuf(head + [LineFeed] + tail, unfilled)) == Decode(head)
  {
    DecodeSplitAtLineFeed(head, tail);
    NoLineFeedNoNewline(head);
    FirstLineOfLines(Decode(head).value, Decode(tail).value);
  }

  /**
   * Two valid buffers that agree up to their first line feed have the same
   * effect, whatever follows it.
   */
  lemma RestOfBufferIgnored(timestamp: Option<nat>, poll: Poll, head: seq<byte>,
                            tail1: seq<byte>, unfilled1: nat, tail2: seq<byte>, unfilled2: nat, now: nat)
    requires LineFeed !in head
    requires Decode(head + [LineFeed] + tail1).Some? && Decode(head + [LineFeed] + tail2).Some?
    ensures Inspect(timestamp, poll, ReadBuf(head + [LineFeed] + tail1, unfilled1), now)
         == Inspect(timestamp, poll, ReadBuf(head + [LineFeed] + tail2, unfilled2), now)
  {
    if poll.Ready? {
      ReadLineIgnoresRest(poll, head, tail1, unfilled1);
      ReadLineIgnoresRest(poll, head, tail2, unfilled2);
    }
  }

  /** One read of a relay: the wrapped stream's answer, the buffer, and the clock. */
  datatype Read = Read(poll: Poll, buf: ReadBuf, now: nat)

  /** The timer after a run of reads, and everything logged on the way. */
  datatype Trace = Trace(timestamp: Option<nat>, events: seq<LogEvent>)

  function Logged(event: Option<LogEvent>): seq<LogEvent>
  {
    if event.Some? then [event.value] else []
  }

  /** One more read applied to a trace. */
  function Step(t: Trace, r: Read): Trace
  {
    var i := Inspect(t.timestamp, r.poll, r.buf, r.now);
    Trace(i.timestamp, t.events + Logged(i.event))
  }

  /** The reads of one relay, through both loggers, applied one after the other. */
  function Replay(timestamp: Option<nat>, run: seq<Read>): Trace
    decreases |run|
  {
    if run == [] then Trace(timestamp, []) else Step(Replay(timestamp, run[..|run| - 1]), run[|run| - 1])
  }

  function CountIf(b: bool): nat { if b then 1 else 0 }

  /** How many reads of the run qualify. */
  function QualifyingReads(run: seq<Read>): nat
  {
    if run == [] then 0
    else QualifyingReads(run[..|run| - 1]) + CountIf(Qualifies(run[|run| - 1].poll, run[|run| - 1].buf))
  }

  /**
   * Requests and responses alternate: every response directly follows a
   * request in the log, and a pending timer was started by the last line logged.
   */
  ghost predicate Alternating(t: Trace)
  {
    (forall i :: 0 <= i < |t.events| && t.events[i].Response? ==> i > 0 && t.events[i - 1].Request?)
    && (t.timestamp.Some? ==> t.events != [] && t.events[|t.events| - 1].Request?)
  }

  /** What kind of line a read can log, given the timer before it. */
  lemma InspectEventKind(timestamp: Option<nat>, poll: Poll, buf: ReadBuf, now: nat)
    ensures var i := Inspect(timestamp, poll, buf, now);
      (i.event.Some? && i.event.value.Response? ==> timestamp.Some?)
      && (i.timestamp.Some? ==> i == Inspection(timestamp, None) || (i.event.Some? && i.event.value.Request?))
  {
  }

  /** Appending a line that respects the timer keeps a trace alternating. */
  lemma AppendAlternates(t: Trace, timestamp: Option<nat>, event: Option<LogEvent>)
    requires Alternating(t)
    requires event.Some? && event.value.Response? ==> t.timestamp.Some?
    requires timestamp.Some? ==> (timestamp == t.timestamp && event.None?) || (event.Some? && event.value.Request?)
    ensures Alternating(Trace(timestamp, t.events + Logged(event)))
  {
    var e := t.events + Logged(event);
    if event.Some? {
      assert e[|e| - 1] == event.value;
      assert forall k :: 0 <= k < |t.events| ==> e[k] == t.events[k];
    } else {
      assert e == t.events;
    }
  }

  /** Every read keeps requests and responses alternating. */
  lemma StepAlternates(t: Trace, r: Read)
    requires Alternating(t)
    ensures Alternating(Step(t, r))
  {
    var i := Inspect(t.timestamp, r.poll, r.buf, r.now);
    InspectEventKind(t.timestamp, r.poll, r.buf, r.now);
    AppendAlternates(t, i.timestamp, i.event);
  }

  /** From a fresh `LoggerState`, every run of reads keeps requests and responses alternating. */
  lemma {:induction false} ReplayAlternates(run: seq<Read>)
    ensures Alternating(Replay(None, run))
    decreases |run|
  {
    if run != [] {
      ReplayAlternates(run[..|run| - 1]);
      StepAlternates(Replay(None, run[..|run| - 1]), run[|run| - 1]);
    }
  }

  /** A read flips whether a request is pending exactly when it qualifies. */
  lemma StepToggles(t: Trace, r: Read)
    ensures Step(t, r).timestamp.Some? <==> (t.timestamp.Some? != Qualifies(r.poll, r.buf))
  {
  }

  lemma ParityStep(n: nat, q: bool)
    ensures (n + CountIf(q)) % 2 == 1 <==> ((n % 2 == 1) != q)
  {
  }

  /** From a fresh `LoggerState`, a request is pending exactly after an odd number of qualifying reads. */
  lemma {:induction false} ReplayParity(run: seq<Read>)
    ensures Replay(None, run).timestamp.Some? <==> QualifyingReads(run) % 2 == 1
    decreases |run|
  {
    if run != [] {
      var prefix, r := run[..|run| - 1], run[|run| - 1];
      ReplayParity(prefix);
      assert Replay(None, run) == Step(Replay(None, prefix), r);
      StepToggles(Replay(None, prefix), r);
      var q := Qualifies(r.poll, r.buf);
      assert QualifyingReads(run) == QualifyingReads(prefix) + CountIf(q);
      ParityStep(QualifyingReads(prefix), q);
    }
  }

  /** `LoggerState`: the timer shared by the two loggers of one relay. */
  class LoggerState {
    var timestamp: Option<nat>

    /** `LoggerState::new`: no request is pending. */
    constructor ()
      ensures timestamp == None
    {
      timestamp := None;
    }
  }

  /** `Logger<T>`: a wrapped stream together with the shared timer. */
  class Logger {
    const state: LoggerState

    constructor (state: LoggerState)
      ensures this.state == state
    {
      this.state := state;
    }

    /**
     * `poll_read`: forwards the wrapped read's answer unchanged (the buffer is
     * a value here, so it cannot be written either), and updates the shared
     * timer and logs as `Inspect` says.
     */
    method PollRead(inner: Poll, buf: ReadBuf, now: nat) returns (result: Poll, event: Option<LogEvent>)
      modifies state
      ensures result == inner
      ensures Inspection(state.timestamp, event) == Inspect(old(state.timestamp), inner, buf, now)
    {
      result, event := inner, None;
      if inner.Pending? || buf.Capacity() == buf.Remaining() {
        return;
      }
      var text := Decode(buf.filled);
      if text.None? {
        return;
      }
      var line := FirstLine(text.value);
      if !Contains(line, HttpToken) {
        return;
      }
      var log := Trim(RemoveAll(line, HttpToken));
      var pending := state.timestamp;
      state.timestamp := None;
      if pending.Some? {
        var split := SplitOnce(log, ' ');
        if split.None? {
          return;
        }
        var code := ParseI32(split.value.0);
        if code.None? {
          return;
        }
        var colour := Classify(code.value);
        var shown := if colour == Plain then Decimal(code.value) else log;
        event := Some(Response(Elapsed(pending.value, now), colour, shown));
      } else {
        event := Some(Request(Trim(log)));
        state.timestamp := Some(now);
      }
    }
  }

  /** The two loggers of one relay, wrapping the data connection and the local target. */
  method NewRelayLoggers() returns (source: Logger, target: Logger)
    ensures fresh(source) && fresh(target) && fresh(source.state)
    ensures source.state == target.state && source.state.timestamp == None
  {
    var state := new LoggerState();
    source := new Logger(state);
    target := new Logger(state);
  }

  /**
   * The relay's two loggers share one timer: a request line read from the data
   * connection and the response line read from the local target produce one
   * request log and then one response log timed from the request's read.
   */
  method RequestThenResponse(source: Logger, target: Logger, request: Read, response: Read)
    returns (first: Option<LogEvent>, second: Option<LogEvent>)
    requires source.state == target.state && source.state.timestamp == None
    modifies source.state
    ensures Qualifies(request.poll, request.buf) ==>
      first == Some(Request(LogText(ReadLine(request.poll, request.buf).value)))
    ensures Qualifies(request.poll, request.buf) && Qualifies(response.poll, response.buf) ==>
      source.state.timestamp == None
    ensures (Qualifies(request.poll, request.buf) && Qualifies(response.poll, response.buf)
             && StatusCode(LogText(ReadLine(response.poll, response.buf).value)).Some?) ==>
      second.Some? && second.value.Response? && second.value.elapsed == Elapsed(request.now, response.now)
  {
    var r1, r2;
    r1, first := source.PollRead(request.poll, request.buf, request.now);
    r2, second := target.PollRead(response.poll, response.buf, response.now);
  }
}

=== FILE: optional.dfy ===
/** The usual Some/None wrapper, used for the Rust `Option`s and fallible parses of the client. */
module Optional {
  datatype Option<+T> = None | Some(value: T)
}

=== FILE: packet.dfy ===
/**
 * The control messages exchanged between client and server. `DataForward` is
 * the server's go-ahead on a data connection; the client uses it although the
 * enum in src/packet.rs does not list it.
 */
module Packets {
  datatype Packet =
    | Ack
    | Init
    | Success(domain: string)
    | DataInit(domain: string)
    | DataForward
}

=== FILE: text.dfy ===
/**
 * The string operations the traffic logger applies to the first line of a read
 * (src/client.rs:160-186), with the meaning the Rust standard library gives them:
 * `split('\n').next()`, `contains`, `replace(_, "")`, `trim`, `split_once(' ')`,
 * `parse::<i32>()` and `i32::to_string`.
 */
module Text {
  import opened Optional

  /** The HTTP version token the logger looks for and strips. */
  const HttpToken: string := "HTTP/1.1"

  const I32Min: int := -0x8000_0000
  const I32Max: int := 0x7FFF_FFFF

  // ---------------------------------------------------------------- first line

  /** `s.split('\n').next()`: the text before the first newline, or all of s. */
  function FirstLine(s: string): (line: string)
    ensures line <= s
    ensures '\n' !in line
    ensures |line| < |s| ==> s[|line|] == '\n'
  {
    if s == [] || s[0] == '\n' then [] else [s[0]] + FirstLine(s[1..])
  }

  /** Whatever follows the first newline does not change the first line. */
  lemma {:induction false} FirstLineOfLines(head: string, tail: string)
    requires '\n' !in head
    ensures FirstLine(head + ['\n'] + tail) == head
  {
    if head != [] {
      assert (head + ['\n'] + tail)[1..] == head[1..] + ['\n'] + tail;
      FirstLineOfLines(head[1..], tail);
    }
  }

  // ---------------------------------------------------------------- substring search

  /** p occurs in s starting at index i. */
  ghost predicate OccursAt(s: string, p: string, i: int)
  {
    0 <= i && i + |p| <= |s| && s[i..i + |p|] == p
  }

  /** With no occurrence at 0, p occurs in s exactly when it occurs in s[1..]. */
  lemma OccursPastFirst(s: string, p: string)
    requires s != [] && !OccursAt(s, p, 0)
    ensures (exists i :: OccursAt(s, p, i)) <==> (exists i :: OccursAt(s[1..], p, i))
  {
    if exists i :: OccursAt(s[1..], p, i) {
      var i :| OccursAt(s[1..], p, i);
      assert s[i + 1..i + 1 + |p|] == s[1..][i..i + |p|];
      assert OccursAt(s, p, i + 1);
    }
    if exists i :: OccursAt(s, p, i) {
      var i :| OccursAt(s, p, i);
      assert i > 0;
      assert s[1..][i - 1..i - 1 + |p|] == s[i..i + |p|];
      assert OccursAt(s[1..], p, i - 1);
    }
  }

  /** `s.contains(p)`: the left-to-right scan finds p exactly when p occurs somewhere in s. */
  function Contains(s: string, p: string): (r: bool)
    ensures r <==> exists i :: OccursAt(s, p, i)
    decreases |s|
  {
    if |s| < |p| then false
    else if s[..|p|] == p then assert OccursAt(s, p, 0); true
    else OccursPastFirst(s, p); Contains(s[1..], p)
  }

  // ---------------------------------------------------------------- replace

  /**
   * `s.replace(p, "")`: every non-overlapping occurrence of p, found from the
   * left, is dropped.
   */
  function RemoveAll(s: string, p: string): (r: string)
    requires |p| > 0
    ensures |r| <= |s|
    decreases |s|
  {
    if |s| < |p| then s
    else if s[..|p|] == p then RemoveAll(s[|p|..], p)
    else [s[0]] + RemoveAll(s[1..], p)
  }

  /** Removal changes the text exactly when the token occurs in it. */
  lemma {:induction false} RemoveAllUnchanged(s: string, p: string)
    requires |p| > 0
    ensures RemoveAll(s, p) == s <==> !Contains(s, p)
    decreases |s|
  {
    if |s| >= |p| {
      RemoveAllUnchanged(s[1..], p);
      if s[..|p|] == p {
        assert |RemoveAll(s, p)| < |s|;
      } else if RemoveAll(s, p) == s {
        assert RemoveAll(s[1..], p) == s[1..] by {
          assert RemoveAll(s, p) == [s[0]] + RemoveAll(s[1..], p);
          assert s == [s[0]] + s[1..];
        }
      }
    }
  }

  /**
   * What `replace` does at the first occurrence: the text before it is kept,
   * the occurrence is dropped, and removal goes on after it.
   */
  lemma {:induction false} RemoveAllAtFirst(s: string, p: string, i: nat)
    requires |p| > 0 && OccursAt(s, p, i)
    requires forall j :: 0 <= j < i ==> !OccursAt(s, p, j)
    ensures RemoveAll(s, p) == s[..i] + RemoveAll(s[i + |p|..], p)
    decreases i
  {
    if i == 0 {
      assert RemoveAll(s, p) == RemoveAll(s[|p|..], p) by {
        assert s[..|p|] == p;
      }
      assert s[..i] == [];
    } else {
      NoEarlierInTail(s, p, i);
      RemoveAllAtFirst(s[1..], p, i - 1);
      RemoveAllSkipsFirst(s, p, i);
    }
  }

  /** Where p does not start s, removal keeps the first character and goes on with the rest. */
  lemma RemoveAllSkipsFirst(s: string, p: string, i: nat)
    requires |p| > 0 && 0 < i && i + |p| <= |s| && !OccursAt(s, p, 0)
    requires RemoveAll(s[1..], p) == s[1..][..i - 1] + RemoveAll(s[1..][i - 1 + |p|..], p)
    ensures RemoveAll(s, p) == s[..i] + RemoveAll(s[i + |p|..], p)
  {
    RemoveAllUnfold(s, p);
    assert s[1..][i - 1 + |p|..] == s[i + |p|..];
    ConsPrefix(s, i, RemoveAll(s[i + |p|..], p));
  }

  lemma ConsPrefix(s: string, i: nat, rest: string)
    requires 0 < i <= |s|
    ensures [s[0]] + (s[1..][..i - 1] + rest) == s[..i] + rest
  {
    assert [s[0]] + s[1..][..i - 1] == s[..i];
  }

  lemma RemoveAllUnfold(s: string, p: string)
    requires |p| > 0 && |p| <= |s| && !OccursAt(s, p, 0)
    ensures RemoveAll(s, p) == [s[0]] + RemoveAll(s[1..], p)
  {
  }

  /** Shifting the first occurrence at i > 0 one place left, in the tail s[1..]. */
  lemma NoEarlierInTail(s: string, p: string, i: nat)
    requires 0 < i && OccursAt(s, p, i)
    requires forall j :: 0 <= j < i ==> !OccursAt(s, p, j)
    ensures OccursAt(s[1..], p, i - 1)
    ensures forall j :: 0 <= j < i - 1 ==> !OccursAt(s[1..], p, j)
  {
    assert s[1..][i - 1..i - 1 + |p|] == s[i..i + |p|];
    forall j | 0 <= j < i - 1
      ensures !OccursAt(s[1..], p, j)
    {
      if OccursAt(s[1..], p, j) {
        assert s[j + 1..j + 1 + |p|] == s[1..][j..j + |p|];
        assert OccursAt(s, p, j + 1);
      }
    }
  }

  /** Where the token occurs, removal shortens the line by at least its length. */
  lemma RemoveAllShortens(s: string, p: string)
    requires |p| > 0 && Contains(s, p)
    ensures |RemoveAll(s, p)| + |p| <= |s|
  {
    var i := FirstOccurrence(s, p);
    RemoveAllAtFirst(s, p, i);
  }

  /** The index of the leftmost occurrence of p in s. */
  ghost function FirstOccurrence(s: string, p: string): (i: nat)
    requires exists i :: OccursAt(s, p, i)
    ensures OccursAt(s, p, i) && forall j :: 0 <= j < i ==> !OccursAt(s, p, j)
    decreases |s|
  {
    if OccursAt(s, p, 0) then 0
    else
      OccursPastFirst(s, p);
      var k := FirstOccurrence(s[1..], p);
      NoEarlierInFull(s, p, k);
      k + 1
  }

  /** The first occurrence in s[1..] at k, moved one place right in s. */
  lemma NoEarlierInFull(s: string, p: string, k: nat)
    requires s != [] && !OccursAt(s, p, 0) && OccursAt(s[1..], p, k)
    requires forall j :: 0 <= j < k ==> !OccursAt(s[1..], p, j)
    ensures OccursAt(s, p, k + 1) && forall j :: 0 <= j < k + 1 ==> !OccursAt(s, p, j)
  {
    assert s[k + 1..k + 1 + |p|] == s[1..][k..k + |p|];
    forall j | 0 < j < k + 1
      ensures !OccursAt(s, p, j)
    {
      if OccursAt(s, p, j) {
        assert s[1..][j - 1..j - 1 + |p|] == s[j..j + |p|];
        assert OccursAt(s[1..], p, j - 1);
      }
    }
  }

  // ---------------------------------------------------------------- trim

  /** `char::is_whitespace`: the Unicode White_Space property. */
  predicate IsWhitespace(c: char)
  {
    var n := c as int;
    (0x09 <= n <= 0x0D) || n == 0x20 || n == 0x85 || n == 0xA0 || n == 0x1680
    || (0x2000 <= n <= 0x200A) || n == 0x2028 || n == 0x2029 || n == 0x202F
    || n == 0x205F || n == 0x3000
  }

  /** `str::trim_start`: drops leading whitespace. */
  function TrimStart(s: string): (r: string)
    ensures |r| <= |s| && r == s[|s| - |r|..]
    ensures forall k :: 0 <= k < |s| - |r| ==> IsWhitespace(s[k])
    ensures r == [] || !IsWhitespace(r[0])
  {
    if s != [] && IsWhitespace(s[0]) then TrimStart(s[1..]) else s
  }

  /** `str::trim_end`: drops trailing whitespace. */
  function TrimEnd(s: string): (r: string)
    ensures |r| <= |s| && r == s[..|r|]
    ensures forall k :: |r| <= k < |s| ==> IsWhitespace(s[k])
    ensures r == [] || !IsWhitespace(r[|r| - 1])
  {
    if s != [] && IsWhitespace(s[|s| - 1]) then TrimEnd(s[..|s| - 1]) else s
  }

  /** r is the slice of s starting at i, and everything outside it is whitespace. */
  ghost predicate TrimmedAt(s: string, r: string, i: int)
  {
    0 <= i <= |s| - |r| && r == s[i..i + |r|]
    && (forall k :: 0 <= k < i ==> IsWhitespace(s[k]))
    && (forall k :: i + |r| <= k < |s| ==> IsWhitespace(s[k]))
  }

  /** `str::trim`: the longest slice of s that neither starts nor ends with whitespace. */
  function Trim(s: string): (r: string)
    ensures exists i :: TrimmedAt(s, r, i)
    ensures r == [] || (!IsWhitespace(r[0]) && !IsWhitespace(r[|r| - 1]))
  {
    var t := TrimStart(s);
    var r := TrimEnd(t);
    TrimSlice(s, t, r);
    assert r != [] ==> r[0] == t[0];
    r
  }

  /** Trimming the start, then the end, leaves a slice of s with whitespace outside it. */
  lemma TrimSlice(s: string, t: string, r: string)
    requires |t| <= |s| && t == s[|s| - |t|..]
    requires forall k :: 0 <= k < |s| - |t| ==> IsWhitespace(s[k])
    requires |r| <= |t| && r == t[..|r|]
    requires forall k :: |r| <= k < |t| ==> IsWhitespace(t[k])
    ensures TrimmedAt(s, r, |s| - |t|)
  {
    var i := |s| - |t|;
    assert t == s[i..];
    assert r == t[..|r|];
    assert r == s[i..i + |r|];
    forall k | i + |r| <= k < |s|
      ensures IsWhitespace(s[k])
    {
      assert s[k] == t[k - i];
    }
  }

  /** Trimming never lengthens a text. */
  lemma TrimShortens(s: string)
    ensures |Trim(s)| <= |s|
  {
  }

  /** Trimming twice is trimming once (the request text is `log.trim()` of a trimmed log). */
  lemma TrimIdempotent(s: string)
    ensures Trim(Trim(s)) == Trim(s)
  {
    var r := Trim(s);
    assert TrimStart(r) == r;
    assert TrimEnd(r) == r;
  }

  // ---------------------------------------------------------------- split_once

  /** `s.split_once(sep)`: the text before the first sep and the text after it. */
  function SplitOnce(s: string, sep: char): (r: Option<(string, string)>)
    ensures r.None? <==> sep !in s
    ensures r.Some? ==> s == r.value.0 + [sep] + r.value.1 && sep !in r.value.0
  {
    if s == [] then None
    else if s[0] == sep then Some(([], s[1..]))
    else match SplitOnce(s[1..], sep)
      case None => None
      case Some((before, after)) => Some(([s[0]] + before, after))
  }

  // ---------------------------------------------------------------- integers

  predicate IsDigit(c: char) { '0' <= c <= '9' }

  predicate AllDigits(s: string) { forall k :: 0 <= k < |s| ==> IsDigit(s[k]) }

  function DigitValue(c: char): nat requires IsDigit(c) { c as int - '0' as int }

  function DigitChar(d: nat): (c: char)
    requires d < 10
    ensures IsDigit(c) && DigitValue(c) == d
  {
    ('0' as int + d) as char
  }

  /** The number a string of decimal digits denotes (most significant first). */
  function DigitsValue(s: string): nat
    requires AllDigits(s)
  {
    if s == [] then 0 else DigitsValue(s[..|s| - 1]) * 10 + DigitValue(s[|s| - 1])
  }

  /**
   * `str::parse::<i32>()`: an optional sign, then one or more ASCII digits, whose
   * value must fit in 32 bits; anything else is an error.
   */
  function ParseI32(s: string): (r: Option<int>)
    ensures r.Some? ==> I32Min <= r.value <= I32Max
    ensures r.Some? ==> s != [] && (IsDigit(s[0]) || s[0] == '+' || s[0] == '-')
    ensures r.Some? ==> (forall k :: 1 <= k < |s| ==> IsDigit(s[k])) && ((s[0] == '+' || s[0] == '-') ==> |s| > 1)
    ensures r.Some? ==>
      r.value == (if s[0] == '-' then -1 else 1) * DigitsValue(if IsDigit(s[0]) then s else s[1..])
    ensures (s != [] && (IsDigit(s[0]) || ((s[0] == '+' || s[0] == '-') && |s| > 1))
             && (forall k :: 1 <= k < |s| ==> IsDigit(s[k]))
             && I32Min <= (if s[0] == '-' then -1 else 1) * DigitsValue(if IsDigit(s[0]) then s else s[1..]) <= I32Max)
            ==> r.Some?
  {
    if s == [] then None
    else
      var signed := s[0] == '+' || s[0] == '-';
      var digits := if signed then s[1..] else s;
      if digits == [] || !AllDigits(digits) then None
      else
        var v: int := DigitsValue(digits);
        var n := if s[0] == '-' then -v else v;
        if I32Min <= n <= I32Max then Some(n) else None
  }

  /** The decimal digits of n, without leading zeros. */
  function NatDigits(n: nat): (r: string)
    ensures r != [] && AllDigits(r)
    ensures |r| > 1 ==> r[0] != '0'
  {
    if n < 10 then [DigitChar(n)] else NatDigits(n / 10) + [DigitChar(n % 10)]
  }

  /** `i32::to_string`: an optional minus sign and the decimal digits of the magnitude. */
  function Decimal(n: int): (r: string)
    ensures n >= 0 ==> AllDigits(r) && r != [] && DigitsValue(r) == n
    ensures n < 0 ==> |r| > 1 && r[0] == '-' && AllDigits(r[1..]) && DigitsValue(r[1..]) == -n
    ensures n >= 0 && |r| > 1 ==> r[0] != '0'
    ensures n < 0 ==> r[1] != '0'
  {
    if n < 0 then
      NatDigitsValue(-n);
      assert ("-" + NatDigits(-n))[1..] == NatDigits(-n);
      "-" + NatDigits(-n)
    else NatDigitsValue(n); NatDigits(n)
  }

  lemma {:induction false} NatDigitsValue(n: nat)
    ensures DigitsValue(NatDigits(n)) == n
  {
    if n >= 10 {
      var d := NatDigits(n);
      assert d[..|d| - 1] == NatDigits(n / 10);
      NatDigitsValue(n / 10);
    }
  }

  /** Round trip: every 32-bit integer printed in decimal parses back to itself. */
  lemma ParseDecimal(n: int)
    requires I32Min <= n <= I32Max
    ensures ParseI32(Decimal(n)) == Some(n)
  {
  }
}

=== FILE: utf8.dfy ===
/**
 * UTF-8 decoding of a byte buffer, standing in for `str::from_utf8` of the Rust
 * standard library: a buffer is accepted exactly when it is a concatenation of
 * well-formed UTF-8 byte sequences as listed in Table 3-7 of section 3.9 of the
 * Unicode Standard (no overlong forms, no surrogates, nothing above U+10FFFF).
 */
module Utf8 {
  import opened Optional

  newtype byte = b: int | 0 <= b < 256

  const LineFeed: byte := 0x0A

  predicate InRange(b: byte, lo: int, hi: int) { lo <= b as int <= hi }

  predicate IsContinuation(b: byte) { InRange(b, 0x80, 0xBF) }

  /** Bounds allowed for the second byte of a three-byte sequence led by b0. */
  function Second3Lo(b0: int): int { if b0 == 0xE0 then 0xA0 else 0x80 }
  function Second3Hi(b0: int): int { if b0 == 0xED then 0x9F else 0xBF }
  /** Bounds allowed for the second byte of a four-byte sequence led by b0. */
  function Second4Lo(b0: int): int { if b0 == 0xF0 then 0x90 else 0x80 }
  function Second4Hi(b0: int): int { if b0 == 0xF4 then 0x8F else 0xBF }

  /**
   * The scalar value encoded at the start of s and the number of bytes it takes,
   * or None when s does not start with a well-formed sequence.
   */
  function DecodeFirst(s: seq<byte>): (r: Option<(char, nat)>)
    requires |s| > 0
    ensures r.Some? ==> 1 <= r.value.1 <= |s| && r.value.1 <= 4
    ensures r.Some? && r.value.1 == 1 ==> r.value.0 as int == s[0] as int
    ensures r.Some? && r.value.1 > 1 ==> r.value.0 as int >= 0x80
    ensures r.Some? ==> forall k :: 1 <= k < r.value.1 ==> IsContinuation(s[k])
  {
    var b0 := s[0] as int;
    if b0 < 0x80 then
      Some((b0 as char, 1))
    else if 0xC2 <= b0 <= 0xDF then
      if |s| >= 2 && IsContinuation(s[1]) then
        Some((((b0 - 0xC0) * 64 + (s[1] as int - 0x80)) as char, 2))
      else None
    else if 0xE0 <= b0 <= 0xEF then
      if |s| >= 3 && InRange(s[1], Second3Lo(b0), Second3Hi(b0)) && IsContinuation(s[2]) then
        Some((((b0 - 0xE0) * 4096 + (s[1] as int - 0x80) * 64 + (s[2] as int - 0x80)) as char, 3))
      else None
    else if 0xF0 <= b0 <= 0xF4 then
      if |s| >= 4 && InRange(s[1], Second4Lo(b0), Second4Hi(b0)) && IsContinuation(s[2]) && IsContinuation(s[3]) then
        Some((((b0 - 0xF0) * 0x40000 + (s[1] as int - 0x80) * 4096
               + (s[2] as int - 0x80) * 64 + (s[3] as int - 0x80)) as char, 4))
      else None
    else None
  }

  /** `str::from_utf8`: the decoded text, or None when the bytes are not valid UTF-8. */
  function Decode(s: seq<byte>): Option<string>
    decreases |s|
  {
    if s == [] then Some([])
    else match DecodeFirst(s)
      case None => None
      case Some((c, w)) =>
        match Decode(s[w..])
        case None => None
        case Some(t) => Some([c] + t)
  }

  /** The UTF-8 encoding of one scalar value. */
  function EncodeChar(c: char): (r: seq<byte>)
    ensures 1 <= |r| <= 4
  {
    var n := c as int;
    if n < 0x80 then [n as byte]
    else if n < 0x800 then [(0xC0 + n / 64) as byte, (0x80 + n % 64) as byte]
    else if n < 0x10000 then
      [(0xE0 + n / 4096) as byte, (0x80 + (n / 64) % 64) as byte, (0x80 + n % 64) as byte]
    else
      [(0xF0 + n / 0x40000) as byte, (0x80 + (n / 4096) % 64) as byte,
       (0x80 + (n / 64) % 64) as byte, (0x80 + n % 64) as byte]
  }

  /** The UTF-8 encoding of a string (what `String::as_bytes` holds). */
  function Encode(s: string): seq<byte>
  {
    if s == [] then [] else EncodeChar(s[0]) + Encode(s[1..])
  }

  /** Decoding the first sequence only looks at the bytes it consumes. */
  lemma DecodeFirstLocal(s: seq<byte>, t: seq<byte>)
    requires |s| > 0 && DecodeFirst(s).Some?
    requires DecodeFirst(s).value.1 <= |t| && t[..DecodeFirst(s).value.1] == s[..DecodeFirst(s).value.1]
    ensures DecodeFirst(t) == DecodeFirst(s)
  {
    var w := DecodeFirst(s).value.1;
    assert t[0] == t[..w][0] == s[..w][0] == s[0];
    if w >= 2 { assert t[1] == t[..w][1] == s[..w][1] == s[1]; }
    if w >= 3 { assert t[2] == t[..w][2] == s[..w][2] == s[2]; }
    if w >= 4 { assert t[3] == t[..w][3] == s[..w][3] == s[3]; }
  }

  lemma EncodeCharDecodes(c: char, rest: seq<byte>)
    ensures DecodeFirst(EncodeChar(c) + rest) == Some((c, |EncodeChar(c)|))
  {
    var n := c as int;
    var s := EncodeChar(c) + rest;
    if n < 0x80 {
    } else if n < 0x800 {
      assert (n / 64) * 64 + n % 64 == n;
    } else if n < 0x10000 {
      assert (n / 4096) * 4096 + ((n / 64) % 64) * 64 + n % 64 == n by {
        assert n / 64 == (n / 4096) * 64 + (n / 64) % 64;
        assert n == (n / 64) * 64 + n % 64;
      }
    } else {
      assert (n / 0x40000) * 0x40000 + ((n / 4096) % 64) * 4096 + ((n / 64) % 64) * 64 + n % 64 == n by {
        assert n / 4096 == (n / 0x40000) * 64 + (n / 4096) % 64;
        assert n / 64 == (n / 4096) * 64 + (n / 64) % 64;
        assert n == (n / 64) * 64 + n % 64;
      }
    }
  }

  lemma EncodeTwo(c: char, b0: int, b1: int)
    requires 0xC2 <= b0 <= 0xDF && 0x80 <= b1 <= 0xBF
    requires c as int == (b0 - 0xC0) * 64 + (b1 - 0x80)
    ensures EncodeChar(c) == [b0 as byte, b1 as byte]
  {
    var n := c as int;
    assert n / 64 == b0 - 0xC0 && n % 64 == b1 - 0x80;
  }

  lemma EncodeThree(c: char, b0: int, b1: int, b2: int)
    requires 0xE0 <= b0 <= 0xEF && Second3Lo(b0) <= b1 <= Second3Hi(b0) && 0x80 <= b2 <= 0xBF
    requires c as int == (b0 - 0xE0) * 4096 + (b1 - 0x80) * 64 + (b2 - 0x80)
    ensures EncodeChar(c) == [b0 as byte, b1 as byte, b2 as byte]
  {
    var n := c as int;
    assert n / 64 == (b0 - 0xE0) * 64 + (b1 - 0x80) && n % 64 == b2 - 0x80;
    assert n / 4096 == b0 - 0xE0 && (n / 64) % 64 == b1 - 0x80;
  }

  lemma EncodeFour(c: char, b0: int, b1: int, b2: int, b3: int)
    requires 0xF0 <= b0 <= 0xF4 && Second4Lo(b0) <= b1 <= Second4Hi(b0)
    requires 0x80 <= b2 <= 0xBF && 0x80 <= b3 <= 0xBF
    requires c as int == (b0 - 0xF0) * 0x40000 + (b1 - 0x80) * 4096 + (b2 - 0x80) * 64 + (b3 - 0x80)
    ensures EncodeChar(c) == [b0 as byte, b1 as byte, b2 as byte, b3 as byte]
  {
    var n := c as int;
    assert n / 64 == (b0 - 0xF0) * 4096 + (b1 - 0x80) * 64 + (b2 - 0x80) && n % 64 == b3 - 0x80;
    assert n / 4096 == (b0 - 0xF0) * 64 + (b1 - 0x80) && (n / 64) % 64 == b2 - 0x80;
    assert n / 0x40000 == b0 - 0xF0 && (n / 4096) % 64 == b1 - 0x80;
  }

  /** The sequence DecodeFirst accepts is the encoding of the scalar value it returns. */
  lemma DecodeFirstEncodes(s: seq<byte>)
    requires |s| > 0 && DecodeFirst(s).Some?
    ensures EncodeChar(DecodeFirst(s).value.0) == s[..DecodeFirst(s).value.1]
  {
    var c, w := DecodeFirst(s).value.0, DecodeFirst(s).value.1;
    var b0 := s[0] as int;
    if b0 < 0x80 {
      assert s[..1] == [s[0]];
    } else if b0 <= 0xDF {
      EncodeTwo(c, b0, s[1] as int);
      assert s[..2] == [s[0], s[1]];
    } else if b0 <= 0xEF {
      EncodeThree(c, b0, s[1] as int, s[2] as int);
      assert s[..3] == [s[0], s[1], s[2]];
    } else {
      EncodeFour(c, b0, s[1] as int, s[2] as int, s[3] as int);
      assert s[..4] == [s[0], s[1], s[2], s[3]];
    }
  }

  /** Round trip: decoding the encoding of any string gives the string back. */
  lemma {:induction false} DecodeEncode(s: string)
    ensures Decode(Encode(s)) == Some(s)
  {
    if s != [] {
      var e := EncodeChar(s[0]);
      assert Encode(s) == e + Encode(s[1..]);
      EncodeCharDecodes(s[0], Encode(s[1..]));
      assert Encode(s)[|e|..] == Encode(s[1..]);
      DecodeEncode(s[1..]);
      assert [s[0]] + s[1..] == s;
    }
  }

  /** Whatever Decode accepts is exactly the encoding of the text it returns. */
  lemma {:induction false} EncodeDecode(s: seq<byte>)
    requires Decode(s).Some?
    ensures Encode(Decode(s).value) == s
    decreases |s|
  {
    if s != [] {
      var c, w := DecodeFirst(s).value.0, DecodeFirst(s).value.1;
      var t := Decode(s[w..]).value;
      EncodeDecode(s[w..]);
      DecodeFirstEncodes(s);
      assert ([c] + t)[0] == c && ([c] + t)[1..] == t;
      assert s == s[..w] + s[w..];
    }
  }

  /** A buffer decodes to t exactly when it is the encoding of t: UTF-8 is a bijection. */
  lemma DecodeExactlyEncodings(s: seq<byte>, t: string)
    ensures Decode(s) == Some(t) <==> Encode(t) == s
  {
    if Encode(t) == s {
      DecodeEncode(t);
    }
    if Decode(s) == Some(t) {
      EncodeDecode(s);
    }
  }

  /**
   * An ASCII line feed is always a sequence boundary: a valid buffer a + [LF] + b
   * decodes as the text of a, a newline, and the text of b.
   */
  lemma {:induction false} DecodeSplitAtLineFeed(a: seq<byte>, b: seq<byte>)
    requires Decode(a + [LineFeed] + b).Some?
    ensures Decode(a).Some? && Decode(b).Some?
    ensures Decode(a + [LineFeed] + b).value == Decode(a).value + ['\n'] + Decode(b).value
    decreases |a|
  {
    var s := a + [LineFeed] + b;
    if a == [] {
      assert s[1..] == b;
    } else {
      var w := DecodeFirst(s).value.1;
      assert s[|a|] == LineFeed;
      assert w <= |a|;
      DecodeFirstLocal(s, a);
      assert s[w..] == a[w..] + [LineFeed] + b;
      DecodeSplitAtLineFeed(a[w..], b);
    }
  }

  /** A buffer without the byte 0x0A decodes to a text without '\n'. */
  lemma {:induction false} NoLineFeedNoNewline(a: seq<byte>)
    requires Decode(a).Some? && LineFeed !in a
    ensures '\n' !in Decode(a).value
    decreases |a|
  {
    if a != [] {
      var w := DecodeFirst(a).value.1;
      assert a[w..] <= a[w..] && forall k :: 0 <= k < |a[w..]| ==> a[w..][k] == a[w + k];
      assert LineFeed !in a[w..];
      NoLineFeedNoNewline(a[w..]);
    }
  }
}
